=== FILE: README.md ===
# Manila Payroll master file: a Dafny model of the employee table controller

The console is one React component (`frontend/src/App.js`). It fetches every
employee record from a REST backend and shows the records in a table. A search
box filters the table. A toolbar offers Add, Edit, View, Delete, Refresh and
Download (CSV). This project models that component's logic as pure functions
over immutable data:

- `strings.dfy` (module `Strings`): the JavaScript string operations the
  component relies on. These are `trim`, ASCII `toLowerCase`, `includes`,
  `Array.prototype.join`, a one-character `split` and the decimal rendering
  of integers. Each one is paired with a reference definition or an inverse.
- `values.dfy` (module `Values`): field values (string, number, boolean, null,
  Date), records as key-ordered field lists, JavaScript truthiness,
  `String(v)`, the element text `join` uses, and `new Date(v)` with its
  validity test. A `Platform` value holds the host-dependent parts of the
  runtime as opaque functions.
- `search.dfy` (module `Search`): the search effect that computes the
  filtered list from the full list and the term.
- `dates.dfy` (module `Dates`): the display formatter `formatDate` and the
  edit-form normaliser `parseEmployeeDates`.
- `csv.dfy` (module `Csv`): the text that Download exports.
- `toolbar.dfy` (module `Toolbar`): the application state and one transition
  per action. HTTP replies and the confirmation prompt's answer are
  parameters. Every notification is appended to a queue held in the state.

## Model

| member | source | states |
|---|---|---|
| `Values.Truthy` | frontend/src/App.js:143-161 | The falsy values `!date` and `if (parsed[field])` reject are exactly "", the numbers 0 and NaN, false and null. Every other value is truthy, Dates included. |
| `Values.Text` | frontend/src/App.js:35 | `String(value)` leaves a string as it is, and writes a boolean or null as "true", "false" or "null". "true" is the text of exactly the true boolean. |
| `Values.NewDate` | frontend/src/App.js:143-164 | `new Date(v)` with the `isNaN(getTime())` test: only a string or a number can give an invalid date. A boolean or null gives the instant 0 or 1 ms after the epoch, and a Date gives itself. |
| `Toolbar.IdText` | frontend/src/App.js:100-103 | The id in a DELETE URL is "undefined" when the record has no `emp_id` field, and otherwise the `String` text of its first `emp_id` field. |
| `Strings.LowerPointwise` | frontend/src/App.js:32-35 | `toLowerCase` lowers each character on its own: 'A'..'Z' become 'a'..'z' and every other character is kept. The result has the input's length. |
| `Strings.TrimStart` | frontend/src/App.js:29 | The result is the suffix of the term that starts at its first non-whitespace character. Every character dropped is ECMAScript whitespace. |
| `Strings.TrimEnd` | frontend/src/App.js:29 | The result is the prefix that ends at the last non-whitespace character. Every character dropped is whitespace. |
| `Strings.TrimEmptyIffBlank` | frontend/src/App.js:29 | `term.trim() === ""` holds exactly when every character of the term is whitespace, the empty term included. |
| `Strings.IncludesIffOccurs` | frontend/src/App.js:35 | The left-to-right `includes` scan succeeds exactly when the needle occurs at some position of the text. |
| `Search.SomeFieldMatchesIffMentions` | frontend/src/App.js:33-36 | `Object.values(emp).some(...)` holds exactly when some field's lower-cased `String` form contains the needle at some position. |
| `Search.Filter` | frontend/src/App.js:28-40 | A blank term leaves the list as it is. Otherwise a record is in the result iff it is in the input and one of its fields' lower-cased text contains the lower-cased, untrimmed term. |
| `Search.KeepMatchingPositions` | frontend/src/App.js:33-37 | `employees.filter(...)` keeps exactly the matching records. It keeps them at strictly increasing input positions, so order is kept and nothing is added or repeated. |
| `Search.FilterPositions` | frontend/src/App.js:28-40 | The filtered list is the full list restricted to strictly increasing positions. A position is kept iff the term is blank or the record there matches. |
| `Search.FilterCaseInsensitive` | frontend/src/App.js:32-35 | Lower-casing the term before searching shows the same records. |
| `Search.FilterIdempotent` | frontend/src/App.js:28-40 | Filtering the filtered list again with the same term changes nothing. |
| `Search.SearchKeepsExample` | frontend/src/App.js:29-38 | The record E1/Ana/Cruz/active/1990-05-02 stays for the term "ana", which differs from "Ana" only in case. |
| `Search.SearchDropsExample` | frontend/src/App.js:29-38 | The same record is dropped for "xyz". |
| `Search.UntrimmedTermExample` | frontend/src/App.js:29-38 | The same record is also dropped for "ana ", because the trailing blank is matched and not trimmed. |
| `Dates.FormatDate` | frontend/src/App.js:142-146 | The result is "N/A" exactly when the value is missing, falsy, or gives an invalid `new Date`. Otherwise it is a date text that differs from "N/A". |
| `Dates.FormatDateReadBack` | frontend/src/App.js:144-145 | A displayed date splits on "/" into exactly three integers: the month counted from 1, the day and the year, all from the local-time getters. Each part is the plain decimal text of its value, with no zero padding. |
| `Dates.FormatDateExample` | frontend/src/App.js:142-146 | If the getters give month index 2, day 4 and year 2024, the display is "3/4/2024". |
| `Dates.NormalizeDate` | frontend/src/App.js:161-167 | Falsy values and Dates come back unchanged. A truthy string becomes its parsed Date, or null when parsing fails. Any other truthy value becomes null. So every value is either left as it was or ends up as a Date or null. |
| `Dates.NormalizeFieldsEntrywise` | frontend/src/App.js:159-169 | After the field loop, the fields named in the list hold their normalised value. Every other field is untouched and key order is kept. |
| `Dates.ParseEmployeeDates` | frontend/src/App.js:148-172 | Undefined stays undefined. Otherwise the result is a copy with the same keys in the same order (so distinct keys stay distinct), and only the seven date fields can differ. Falsy values and Dates are kept. A truthy string becomes its parsed Date, or null when parsing fails. Any other truthy value becomes null. |
| `Dates.ParseEmployeeDatesIdempotent` | frontend/src/App.js:148-172 | Normalising a normalised record changes nothing. |
| `Csv.ToCsv` | frontend/src/App.js:133 | An empty list exports as "". Otherwise the text begins with the first record's line, so there is no header. |
| `Csv.CsvReadBack` | frontend/src/App.js:133 | For a non-empty list in which every record has at least one field and no cell holds "," or a line break, splitting on "\n" gives one line per record in list order. Splitting a line on "," then gives that record's values in key order. (An empty list or an empty record exports as "", which splits into one empty piece.) |
| `Csv.TwoRecordExample` | frontend/src/App.js:133 | The records {E1, A} and {E2, B} export as "E1,A\nE2,B". |
| `Csv.CommaInValueExample` | frontend/src/App.js:133 | Nothing is escaped: a value "Cruz, Jr." makes a two-field record read back as three cells. |
| `Csv.NullCellExample` | frontend/src/App.js:133 | A null value exports as an empty cell and not as "null". |
| `Toolbar.InitialConsistent` | frontend/src/App.js:14-21 | The starting state has empty lists and no notifications, and its table is consistent with its empty term. |
| `Toolbar.FormRecord` | frontend/src/App.js:384-386 | The form receives a record exactly in edit mode with a non-empty selection. That record has the first selected record's keys in order and its non-date fields unchanged. Each date field holds the normalised value of the selected record's field, so it is falsy or a Date, and a parseable date string arrives as its Date. |
| `Toolbar.SyncFilter` | frontend/src/App.js:28-40 | After the search effect, the filtered list equals the full list filtered by the current term. Nothing else changes. |
| `Toolbar.SetSearchTerm` | frontend/src/App.js:220-227 | Typing sets the term and re-filters. A blank term shows the full list, and the selection, dialogs and notifications stay as they were. |
| `Toolbar.Select` | frontend/src/App.js:231-233 | A selection change replaces only the selection. |
| `Toolbar.Refresh` | frontend/src/App.js:42-56 | On success both lists become the fetched list and nothing else changes. On failure the state is untouched except for one appended "Failed to fetch employees" error. |
| `Toolbar.RefreshConsistency` | frontend/src/App.js:28-56 | After a successful refresh and the search effect, the table shows the fetched list filtered by the term. With a blank term it is right at once, and a failed refresh keeps it consistent. |
| `Toolbar.Add` | frontend/src/App.js:58-61 | Add opens the form in create mode, so the form receives no record. Lists, selection, detail dialog and notifications are unchanged. |
| `Toolbar.Edit` | frontend/src/App.js:63-76 | With exactly one record selected, the form opens in edit mode on that record, normalised by `parseEmployeeDates`. Otherwise the lists, selection and dialog state are unchanged and exactly one "edit" warning is appended. |
| `Toolbar.View` | frontend/src/App.js:78-90 | With exactly one record selected, the detail dialog opens on that record unchanged. Otherwise the lists, selection and dialog state are unchanged and exactly one "view" warning is appended. |
| `Toolbar.CloseForm` | frontend/src/App.js:383 | Hiding the form clears only its visibility flag. |
| `Toolbar.CloseView` | frontend/src/App.js:399 | Hiding the detail dialog clears only its visibility flag and keeps the viewed record. |
| `Toolbar.ActionsKeepConsistency` | frontend/src/App.js:58-90 | Add and View keep the table equal to the full list filtered by the term. |
| `Toolbar.EditKeepsConsistency` | frontend/src/App.js:63-76 | Edit keeps the table equal to the full list filtered by the term, whether or not exactly one record is selected. |
| `Toolbar.ClosingKeepsConsistency` | frontend/src/App.js:383-399 | Both close handlers keep the table equal to the full list filtered by the term. |
| `Toolbar.Download` | frontend/src/App.js:132-133 | The export is built from the full list: an empty list exports as "", otherwise the text begins with the first fetched record's line. |
| `Toolbar.DownloadIgnoresSearch` | frontend/src/App.js:133 | Changing the search term does not change the exported text, although the table depends on the term. |
| `Toolbar.DownloadReadBack` | frontend/src/App.js:133 | When the full list is non-empty, no record is empty and no cell holds "," or a line break, the export reads back as one line per record of the full list, each splitting into that record's values. |
| `Toolbar.FirstFailure` | frontend/src/App.js:99-104 | Finds the first DELETE reply that fails, or None exactly when every reply succeeds. Every reply before the one found succeeded. |
| `Toolbar.HandleDelete` | frontend/src/App.js:92-130 | Empty selection: no calls and one warning. Prompt declined: no change at all. Otherwise the DELETE requests follow the selection's order, at least one is sent, and every request but the last succeeded. |
| `Toolbar.DeleteAllSucceed` | frontend/src/App.js:99-112 | If every DELETE succeeds, every selected id is requested and deleted, the selection is cleared, a refresh starts and the success message carries the original selection size. Lists, term and dialogs stay. |
| `Toolbar.DeleteStopsAtFirstFailure` | frontend/src/App.js:99-120 | If the f-th DELETE is the first to fail, requests went to the first f+1 ids and only the first f were deleted. No refresh starts, the selection, lists and dialogs stay, and one error is appended. |
| `Toolbar.DeleteKeepsConsistency` | frontend/src/App.js:92-130 | Whatever the prompt's answer and the replies, Delete keeps the table consistent with the term. |
| `Toolbar.DeleteSecondFailsExample` | frontend/src/App.js:99-120 | Selection E1, E2, E3 with the second DELETE failing: requests go to E1 and E2, and only E1 is deleted. The selection stays and one error is appended. |
| `Toolbar.DeletedDetailIdentifiesCount` | frontend/src/App.js:107-112 | The success text after a delete differs from every other notification text. It also determines the count it reports. |

Points of the code's behaviour that a reader might not expect, and that the
model keeps:

- Refresh sets the filtered list to the fetched list itself (App.js:47). The
  search effect (App.js:28-40) re-filters it afterwards. The model keeps the
  two steps apart (`Refresh`, then `SyncFilter`), and `RefreshConsistency`
  states what holds after each.
- `parseEmployeeDates` skips falsy values (App.js:161), so `""`, `0` and
  `false` stay in a date field as they are. `Settled` in `dates.dfy` names
  what a date field holds after normalisation: a falsy value or a Date.
- `formatDate` gives "N/A" for every falsy value, including `""`, `0` and
  `false` (App.js:143), as well as for a missing field and an invalid date. It
  formats `true` as the date one millisecond after the epoch.
- The edit form's record is `parseEmployeeDates(selectedEmployees[0])`,
  computed each time the form renders (App.js:384-386), so `FormRecord` reads
  the current selection.
- CSV cells come from `Array.prototype.join`, which writes null as an empty
  cell. The search uses `String(v)`, which writes it as "null".
- Download exports `employees`, the full list, not the filtered rows
  (App.js:133).

## Left out

- `frontend/src/index.js`: React bootstrapping and style imports, with no logic.
- The HTTP client. A list response is an `Option<seq<Record>>`, and the k-th
  DELETE request's outcome is `reply(k)`. The backend's storage, and which ids
  it really removes, are not modelled; `deleted` lists the ids whose request
  succeeded.
- `window.confirm`: the prompt's answer is the boolean `confirmed`.
- JavaScript date parsing, `new Date(number)`, `String(date)` and the
  local-time getters. They are the opaque `Platform` functions, because they
  depend on the host's time zone and parser. Reading a formatted date back
  through the parser depends on the parser, so no such property is stated.
- `String(n)` for numbers. A number is held as the text JavaScript prints for
  it, and the float behind it is not modelled.
- Unicode `toLowerCase`: only ASCII letters are folded. JavaScript strings are
  UTF-16 code units, while Dafny characters are Unicode scalar values.
- Nested objects or arrays as field values: the record schema has none.
- Blob, object URL and anchor click of Download (App.js:134-139). The file
  name `employees.csv` is not modelled.
- The success path's un-awaited `fetchEmployees()` (App.js:105) is reported as
  `refetch`. The fetch it starts is a separate `Refresh` transition. Overlapping
  fetches, and responses that arrive out of order, are concurrency and are not
  modelled.
- Handlers that run while Delete's requests are awaited are not modelled.
  `HandleDelete` is one atomic step, while App.js:100-104 awaits each DELETE
  in turn. A selection change, a search, a Refresh or a second Delete can run
  in between, and App.js:106 then clears a selection made meanwhile.
- Rendering: PrimeReact table columns, pagination, sorting, the Yes/No
  columns, the detail dialog's sections and its `|| "N/A"` fallbacks, and the
  last-updated footer (App.js:229-644).
- Notification lifetime (`life: 3000`) and `console.log` calls. The title of a
  notification ("Success", "Warning", "Error") is fixed by its severity, so the
  model keeps only the severity.
- The `EmployeeForm` component (create and update requests, `onSave`) is not
  part of this model. Only the record it receives and its hide handler are
  modelled.

=== FILE: csv.dfy ===
/** The CSV export of the employee console (frontend/src/App.js,
    `handleDownload`): every record of the full list becomes its field
    values joined by "," and the lines are joined by "\n". There is no
    header line and nothing is quoted or escaped. */
module Csv {
  import opened Strings
  import opened Values

  /** The cell texts of one record, in key order. */
  function Cells(p: Platform, rec: Record): seq<string>
  {
    seq(|rec|, i requires 0 <= i < |rec| => JoinText(p, rec[i].value))
  }

  /** `Object.values(emp).join(",")`. */
  function Line(p: Platform, rec: Record): string
  {
    Join(Cells(p, rec), ",")
  }

  function Lines(p: Platform, rs: seq<Record>): seq<string>
  {
    seq(|rs|, i requires 0 <= i < |rs| => Line(p, rs[i]))
  }

  /** The exported text: the first line is the first record (there is no
      header), and an empty list exports as the empty string. */
  function ToCsv(p: Platform, rs: seq<Record>): (text: string)
    ensures |rs| == 0 ==> text == ""
    ensures |rs| > 0 ==> StartsWith(text, Line(p, rs[0]))
  {
    JoinStartsWithFirst(Lines(p, rs), "\n");
    Join(Lines(p, rs), "\n")
  }

  lemma {:induction false} JoinStartsWithFirst(parts: seq<string>, sep: string)
    ensures |parts| > 0 ==> StartsWith(Join(parts, sep), parts[0])
  {
    if |parts| > 1 {
      assert Join(parts, sep)[..|parts[0]|] == parts[0];
    }
  }

  /** A join contains `c` only if a part or the separator does. */
  lemma {:induction false} JoinAvoids(parts: seq<string>, sep: string, c: char)
    requires c !in sep
    requires forall k :: 0 <= k < |parts| ==> c !in parts[k]
    ensures c !in Join(parts, sep)
    decreases |parts|
  {
    if |parts| > 1 {
      JoinAvoids(parts[1..], sep, c);
    }
  }

  /** No cell of any record contains `c`. */
  predicate CellsAvoid(p: Platform, rs: seq<Record>, c: char)
  {
    forall i, j :: 0 <= i < |rs| && 0 <= j < |rs[i]| ==> c !in JoinText(p, rs[i][j].value)
  }

  /** Reading the export back: when no cell contains a comma or a line
      break and no record is empty, splitting on "\n" gives one line per
      record in list order, and splitting a line on "," gives that record's
      cells in key order. */
  lemma CsvReadBack(p: Platform, rs: seq<Record>)
    requires |rs| > 0
    requires forall i :: 0 <= i < |rs| ==> |rs[i]| > 0
    requires CellsAvoid(p, rs, '\n') && CellsAvoid(p, rs, ',')
    ensures var lines := Split(ToCsv(p, rs), '\n');
            && |lines| == |rs|
            && forall i :: 0 <= i < |rs| ==> Split(lines[i], ',') == Cells(p, rs[i])
  {
    var ls := Lines(p, rs);
    forall i | 0 <= i < |rs|
      ensures '\n' !in ls[i]
      ensures Split(ls[i], ',') == Cells(p, rs[i])
    {
      JoinAvoids(Cells(p, rs[i]), ",", '\n');
      SplitJoin(Cells(p, rs[i]), ',');
    }
    SplitJoin(ls, '\n');
  }

  lemma JoinPair(a: string, b: string, sep: string)
    ensures Join([a, b], sep) == a + sep + b
  {
    assert [a, b][1..] == [b];
  }

  /** Two records give two lines and no header. */
  lemma TwoRecordExample(p: Platform)
    ensures ToCsv(p, [[Field("emp_id", Str("E1")), Field("first_name", Str("A"))],
                      [Field("emp_id", Str("E2")), Field("first_name", Str("B"))]])
            == "E1,A\nE2,B"
  {
    var r1 := [Field("emp_id", Str("E1")), Field("first_name", Str("A"))];
    var r2 := [Field("emp_id", Str("E2")), Field("first_name", Str("B"))];
    assert Cells(p, r1) == ["E1", "A"];
    assert Cells(p, r2) == ["E2", "B"];
    JoinPair("E1", "A", ",");
    JoinPair("E2", "B", ",");
    assert Line(p, r1) == "E1,A";
    assert Line(p, r2) == "E2,B";
    assert Lines(p, [r1, r2]) == ["E1,A", "E2,B"];
    JoinPair("E1,A", "E2,B", "\n");
  }

  /** Nothing is escaped: a comma inside a value reads back as an extra
      cell. */
  lemma CommaInValueExample(p: Platform)
    ensures |Split(Line(p, [Field("emp_id", Str("E1")), Field("last_name", Str("Cruz, Jr."))]), ',')| == 3
  {
    var r := [Field("emp_id", Str("E1")), Field("last_name", Str("Cruz, Jr."))];
    assert Cells(p, r) == ["E1", "Cruz, Jr."];
    JoinPair("E1", "Cruz, Jr.", ",");
    SplitThreePieces("E1", "Cruz", " Jr.", ',');
    assert "E1" + "," + "Cruz, Jr." == "E1" + [','] + "Cruz" + [','] + " Jr.";
  }

  lemma SplitThreePieces(a: string, b: string, c: string, sep: char)
    requires sep !in a && sep !in b && sep !in c
    ensures Split(a + [sep] + b + [sep] + c, sep) == [a, b, c]
  {
    var tail := b + [sep] + c;
    assert a + [sep] + b + [sep] + c == a + [sep] + tail;
    SplitAfterPiece(a, tail, sep);
    SplitAfterPiece(b, c, sep);
    SplitNoSeparator(c, sep);
  }

  /** Null exports as an empty cell (`join` renders null as ""), not as "null". */
  lemma NullCellExample(p: Platform)
    ensures Line(p, [Field("emp_id", Str("E1")), Field("middle_name", Null)]) == "E1,"
  {
    var n := [Field("emp_id", Str("E1")), Field("middle_name", Null)];
    assert Cells(p, n) == ["E1", ""];
    JoinPair("E1", "", ",");
  }
}

=== FILE: dates.dfy ===
/** Date handling in the employee console (frontend/src/App.js): the display
    formatter `formatDate` used by the table and the detail dialog, and
    `parseEmployeeDates`, which prepares the selected record for the edit
    form by turning the seven date fields into Date objects or null. */
module Dates {
  import opened Strings
  import opened Values

  /** The fields `parseEmployeeDates` normalises, in the order it visits them. */
  const DateFields: seq<string> := [
    "ctc_date", "birthday", "date_hired", "date_regularized",
    "date_separated", "contract_start", "contract_end"
  ]

  // ---------------------------------------------------------------------
  // Display formatter
  // ---------------------------------------------------------------------

  /** The property is set, truthy, and `new Date(value)` is a valid date. */
  predicate Displayable(p: Platform, v: Option<Value>)
  {
    Present(v) && NewDate(p, v.value).Some?
  }

  /** `formatDate`: "N/A" for a missing, falsy or invalid date, otherwise
      month/day/year from the local-time getters, month counted from 1 and
      no zero padding. */
  function FormatDate(p: Platform, v: Option<Value>): (r: string)
    ensures r == "N/A" <==> !Displayable(p, v)
  {
    if !Present(v) || NewDate(p, v.value).None? then "N/A"
    else
      var d := NewDate(p, v.value).value;
      IntToString(p.month(d) + 1) + "/" + IntToString(p.day(d)) + "/" + IntToString(p.year(d))
  }

  /** A displayed date reads back: it has exactly three `/`-separated
      parts, which are the 1-based month, the day and the year. */
  lemma FormatDateReadBack(p: Platform, v: Option<Value>)
    requires Displayable(p, v)
    ensures var d := NewDate(p, v.value).value;
            var parts := Split(FormatDate(p, v), '/');
            && |parts| == 3
            && ParseInt(parts[0]) == p.month(d) + 1
            && ParseInt(parts[1]) == p.day(d)
            && ParseInt(parts[2]) == p.year(d)
            && forall j :: 0 <= j < 3 ==> IntToString(ParseInt(parts[j])) == parts[j]
  {
    var d := NewDate(p, v.value).value;
    var parts := [IntToString(p.month(d) + 1), IntToString(p.day(d)), IntToString(p.year(d))];
    assert Join(parts[1..], "/") == parts[1] + "/" + parts[2];
    assert FormatDate(p, v) == Join(parts, "/");
    SplitJoin(parts, '/');
    IntToStringRoundTrip(p.month(d) + 1);
    IntToStringRoundTrip(p.day(d));
    IntToStringRoundTrip(p.year(d));
  }

  /** With local getters giving March 4th 2024, the display is "3/4/2024". */
  lemma FormatDateExample(p: Platform, text: string, at: Instant)
    requires text != "" && p.parseDate(text) == Some(at)
    requires p.month(at) == 2 && p.day(at) == 4 && p.year(at) == 2024
    ensures FormatDate(p, Some(Str(text))) == "3/4/2024"
  {
    assert IntToString(3) == "3";
    assert IntToString(4) == "4";
    assert IntToString(2024) == "2024";
  }

  // ---------------------------------------------------------------------
  // Edit-form normaliser
  // ---------------------------------------------------------------------

  /** A value the normaliser leaves as it is: falsy, or already a Date. */
  predicate Settled(v: Value)
  {
    !Truthy(v) || v.Date?
  }

  /** The rule applied to one date field: falsy values and Dates stay, a
      string becomes its parsed Date or null, anything else becomes null. */
  function NormalizeDate(p: Platform, v: Value): (r: Value)
    ensures Settled(r)
    ensures Settled(v) ==> r == v
    ensures !Settled(v) ==> r.Date? || r.Null?
    ensures Truthy(v) && v.Str? ==>
              r == (if p.parseDate(v.s).Some? then Date(p.parseDate(v.s).value) else Null)
    ensures Truthy(v) && !v.Str? && !v.Date? ==> r == Null
  {
    if !Truthy(v) then v
    else match v
      case Str(_) => (match NewDate(p, v) case Some(at) => Date(at) case None => Null)
      case Date(_) => v
      case _ => Null
  }

  /** Assigns the normalised value to the field called `name`, if present;
      a missing field is not added. */
  function NormalizeField(p: Platform, r: Record, name: string): Record
  {
    seq(|r|, i requires 0 <= i < |r| =>
      if r[i].name == name then Field(name, NormalizeDate(p, r[i].value)) else r[i])
  }

  /** `dateFields.forEach(...)` over the shallow copy. */
  function NormalizeFields(p: Platform, r: Record, fields: seq<string>): Record
    decreases |fields|
  {
    if fields == [] then r else NormalizeFields(p, NormalizeField(p, r, fields[0]), fields[1..])
  }

  /** After the loop, each field named in `fields` holds its normalised
      value and every other field is untouched; keys keep their order. */
  lemma {:induction false} NormalizeFieldsEntrywise(p: Platform, r: Record, fields: seq<string>)
    ensures |NormalizeFields(p, r, fields)| == |r|
    ensures forall i :: 0 <= i < |r| ==>
              NormalizeFields(p, r, fields)[i] ==
                (if r[i].name in fields then Field(r[i].name, NormalizeDate(p, r[i].value)) else r[i])
    decreases |fields|
  {
    if fields != [] {
      var r' := NormalizeField(p, r, fields[0]);
      NormalizeFieldsEntrywise(p, r', fields[1..]);
      forall i | 0 <= i < |r|
        ensures NormalizeFields(p, r, fields)[i] ==
                  (if r[i].name in fields then Field(r[i].name, NormalizeDate(p, r[i].value)) else r[i])
      {
        assert r'[i].name == r[i].name;
        assert r[i].name in fields <==> r[i].name == fields[0] || r[i].name in fields[1..];
      }
    }
  }

  /** `parseEmployeeDates`: undefined stays undefined; otherwise a copy of
      the record in which only the seven date fields may differ, each
      following the per-field rule. */
  function ParseEmployeeDates(p: Platform, e: Option<Record>): (r: Option<Record>)
    ensures e.None? <==> r.None?
    ensures e.Some? && WellFormed(e.value) ==> WellFormed(r.value)
    ensures e.Some? ==>
      var before := e.value;
      var after := r.value;
      && |after| == |before|
      && (forall i :: 0 <= i < |before| ==> after[i].name == before[i].name)
      && (forall i :: 0 <= i < |before| && before[i].name !in DateFields ==> after[i] == before[i])
      && (forall i :: 0 <= i < |before| && Settled(before[i].value) ==> after[i] == before[i])
      && (forall i :: 0 <= i < |before| && before[i].name in DateFields ==> Settled(after[i].value))
      && (forall i ::
            (0 <= i < |before| && before[i].name in DateFields && Truthy(before[i].value) && before[i].value.Str?)
            ==> after[i].value == (if p.parseDate(before[i].value.s).Some?
                                   then Date(p.parseDate(before[i].value.s).value) else Null))
      && (forall i ::
            (0 <= i < |before| && before[i].name in DateFields && Truthy(before[i].value)
             && !before[i].value.Str? && !before[i].value.Date?)
            ==> after[i].value == Null)
  {
    match e
    case None => None
    case Some(rec) =>
      NormalizeFieldsEntrywise(p, rec, DateFields);
      Some(NormalizeFields(p, rec, DateFields))
  }

  /** Normalising an already normalised record changes nothing. */
  lemma ParseEmployeeDatesIdempotent(p: Platform, e: Option<Record>)
    ensures ParseEmployeeDates(p, ParseEmployeeDates(p, e)) == ParseEmployeeDates(p, e)
  {
    if e.Some? {
      var once := ParseEmployeeDates(p, e).value;
      var twice := ParseEmployeeDates(p, Some(once)).value;
      assert |twice| == |once|;
      forall i | 0 <= i < |once|
        ensures twice[i] == once[i]
      {
        if once[i].name in DateFields {
          assert Settled(once[i].value);
        }
      }
      assert twice == once;
    }
  }
}

=== FILE: search.dfy ===
/** The search box of the employee table (frontend/src/App.js, the effect
    on `[searchTerm, employees]`): a record stays in the table when one of
    its field values, turned into text and lower-cased, contains the
    lower-cased search term; a blank term shows every record. */
module Search {
  import opened Strings
  import opened Values

  /** One field value matches when its lower-cased `String(v)` includes the needle. */
  predicate ValueMatches(p: Platform, v: Value, needle: string)
  {
    Includes(Lower(Text(p, v)), needle)
  }

  /** `Object.values(emp).some(...)`: the fields are tried in key order. */
  predicate SomeFieldMatches(p: Platform, rec: Record, needle: string)
  {
    |rec| > 0 && (ValueMatches(p, rec[0].value, needle) || SomeFieldMatches(p, rec[1..], needle))
  }

  /** The matching rule stated without the scan: some field's lower-cased
      text has an occurrence of the needle at some position. */
  ghost predicate Mentions(p: Platform, rec: Record, needle: string)
  {
    exists i, k :: 0 <= i < |rec| && OccursAt(Lower(Text(p, rec[i].value)), needle, k)
  }

  lemma {:induction false} SomeFieldMatchesIffMentions(p: Platform, rec: Record, needle: string)
    ensures SomeFieldMatches(p, rec, needle) <==> Mentions(p, rec, needle)
    decreases |rec|
  {
    if |rec| > 0 {
      var head := Lower(Text(p, rec[0].value));
      IncludesIffOccurs(head, needle);
      SomeFieldMatchesIffMentions(p, rec[1..], needle);
      if Mentions(p, rec[1..], needle) {
        var i, k :| 0 <= i < |rec[1..]| && OccursAt(Lower(Text(p, rec[1..][i].value)), needle, k);
        assert rec[1..][i] == rec[i + 1];
        assert OccursAt(Lower(Text(p, rec[i + 1].value)), needle, k);
      }
      if Mentions(p, rec, needle) {
        var i, k :| 0 <= i < |rec| && OccursAt(Lower(Text(p, rec[i].value)), needle, k);
        if i > 0 {
          assert rec[1..][i - 1] == rec[i];
          assert OccursAt(Lower(Text(p, rec[1..][i - 1].value)), needle, k);
        }
      }
    }
  }

  lemma MatchingIffMentionsAll(p: Platform, rs: seq<Record>, needle: string)
    ensures forall x :: x in rs ==> (SomeFieldMatches(p, x, needle) <==> Mentions(p, x, needle))
  {
    forall x | x in rs
      ensures SomeFieldMatches(p, x, needle) <==> Mentions(p, x, needle)
    {
      SomeFieldMatchesIffMentions(p, x, needle);
    }
  }

  /** `Array.prototype.filter`: the elements `keep` accepts, in order. */
  function KeepIf<T(!new)>(xs: seq<T>, keep: T -> bool): (r: seq<T>)
    ensures |r| <= |xs|
    ensures forall x :: x in r <==> x in xs && keep(x)
  {
    if xs == [] then []
    else (if keep(xs[0]) then [xs[0]] else []) + KeepIf(xs[1..], keep)
  }

  /** `employees.filter(...)` with the matching rule. */
  function KeepMatching(p: Platform, rs: seq<Record>, needle: string): seq<Record>
  {
    KeepIf(rs, x => SomeFieldMatches(p, x, needle))
  }

  /** The filtered list the table shows for `term`. A term that trims to
      "" leaves the list as it is; otherwise the untrimmed term is
      lower-cased and used as the needle. */
  function Filter(p: Platform, rs: seq<Record>, term: string): (r: seq<Record>)
    ensures Blank(term) ==> r == rs
    ensures !Blank(term) ==> forall x :: x in r <==> x in rs && Mentions(p, x, Lower(term))
  {
    TrimEmptyIffBlank(term);
    MatchingIffMentionsAll(p, rs, Lower(term));
    if Trim(term) == "" then rs else KeepMatching(p, rs, Lower(term))
  }

  /** Strictly increasing positions. */
  predicate Increasing(idx: seq<nat>)
  {
    forall k, l :: 0 <= k < l < |idx| ==> idx[k] < idx[l]
  }

  /** Adds one to every index: the positions of a list's tail become
      positions of the whole list. */
  function Shift(idx: seq<nat>): seq<nat>
  {
    seq(|idx|, k requires 0 <= k < |idx| => idx[k] + 1)
  }

  /** A position of the whole list is a shifted position exactly when it
      is not the head and the position before it is in the original. */
  lemma ShiftMember(idx: seq<nat>, i: nat)
    ensures i in Shift(idx) <==> i > 0 && i - 1 in idx
  {
    var shifted := Shift(idx);
    if i in shifted {
      var k :| 0 <= k < |shifted| && shifted[k] == i;
      assert idx[k] == i - 1;
    }
    if i > 0 && i - 1 in idx {
      var k :| 0 <= k < |idx| && idx[k] == i - 1;
      assert shifted[k] == i;
    }
  }

  /** The positions of the elements `keep` accepts, in list order. */
  function Positions<T>(xs: seq<T>, keep: T -> bool): seq<nat>
    decreases |xs|
  {
    if xs == [] then []
    else (if keep(xs[0]) then [0] else []) + Shift(Positions(xs[1..], keep))
  }

  /** There is one position per kept element. */
  lemma {:induction false} PositionsLength<T(!new)>(xs: seq<T>, keep: T -> bool)
    ensures |Positions(xs, keep)| == |KeepIf(xs, keep)|
    decreases |xs|
  {
    if xs != [] {
      PositionsLength(xs[1..], keep);
    }
  }

  /** The k-th kept element sits at the k-th position. */
  lemma {:induction false} PositionsAt<T(!new)>(xs: seq<T>, keep: T -> bool, k: nat)
    requires k < |Positions(xs, keep)|
    ensures Positions(xs, keep)[k] < |xs|
    ensures k < |KeepIf(xs, keep)| && KeepIf(xs, keep)[k] == xs[Positions(xs, keep)[k]]
    decreases |xs|
  {
    PositionsLength(xs, keep);
    assert xs != [];
    var rest := Positions(xs[1..], keep);
    var tail := KeepIf(xs[1..], keep);
    if keep(xs[0]) {
      assert Positions(xs, keep) == [0] + Shift(rest);
      assert KeepIf(xs, keep) == [xs[0]] + tail;
      if k > 0 {
        PositionsAt(xs[1..], keep, k - 1);
        assert xs[1..][rest[k - 1]] == xs[rest[k - 1] + 1];
      }
    } else {
      assert Positions(xs, keep) == Shift(rest);
      assert KeepIf(xs, keep) == tail;
      PositionsAt(xs[1..], keep, k);
      assert xs[1..][rest[k]] == xs[rest[k] + 1];
    }
  }

  /** An earlier entry holds a smaller position. */
  lemma {:induction false} PositionsOrdered<T>(xs: seq<T>, keep: T -> bool, k: nat, l: nat)
    requires k < l < |Positions(xs, keep)|
    ensures Positions(xs, keep)[k] < Positions(xs, keep)[l]
    decreases |xs|
  {
    assert xs != [];
    var rest := Positions(xs[1..], keep);
    if keep(xs[0]) {
      assert Positions(xs, keep) == [0] + Shift(rest);
      if k > 0 {
        PositionsOrdered(xs[1..], keep, k - 1, l - 1);
      }
    } else {
      assert Positions(xs, keep) == Shift(rest);
      PositionsOrdered(xs[1..], keep, k, l);
    }
  }

  /** A position is listed exactly when `keep` accepts the element there. */
  lemma {:induction false} PositionsMember<T>(xs: seq<T>, keep: T -> bool, i: nat)
    requires i < |xs|
    ensures i in Positions(xs, keep) <==> keep(xs[i])
    decreases |xs|
  {
    var rest := Positions(xs[1..], keep);
    var head: seq<nat> := if keep(xs[0]) then [0] else [];
    assert Positions(xs, keep) == head + Shift(rest);
    ShiftMember(rest, i);
    if i > 0 {
      PositionsMember(xs[1..], keep, i - 1);
      assert xs[1..][i - 1] == xs[i];
    }
  }

  /** `filter` keeps exactly the accepted elements, at strictly increasing
      positions of the input. */
  lemma KeepIfPositions<T(!new)>(xs: seq<T>, keep: T -> bool) returns (idx: seq<nat>)
    ensures |idx| == |KeepIf(xs, keep)|
    ensures forall k :: 0 <= k < |idx| ==> idx[k] < |xs| && KeepIf(xs, keep)[k] == xs[idx[k]]
    ensures Increasing(idx)
    ensures forall i :: 0 <= i < |xs| ==> (i in idx <==> keep(xs[i]))
  {
    idx := Positions(xs, keep);
    PositionsLength(xs, keep);
    forall k | 0 <= k < |idx|
      ensures idx[k] < |xs| && KeepIf(xs, keep)[k] == xs[idx[k]]
    {
      PositionsAt(xs, keep, k);
    }
    forall k, l | 0 <= k < l < |idx|
      ensures idx[k] < idx[l]
    {
      PositionsOrdered(xs, keep, k, l);
    }
    forall i | 0 <= i < |xs|
      ensures i in idx <==> keep(xs[i])
    {
      PositionsMember(xs, keep, i);
    }
  }

  /** The kept records are exactly the matching ones, at strictly increasing
      positions of the input: order is kept, nothing is added or repeated. */
  lemma KeepMatchingPositions(p: Platform, rs: seq<Record>, needle: string)
    returns (idx: seq<nat>)
    ensures |idx| == |KeepMatching(p, rs, needle)|
    ensures forall k :: 0 <= k < |idx| ==> idx[k] < |rs| && KeepMatching(p, rs, needle)[k] == rs[idx[k]]
    ensures Increasing(idx)
    ensures forall i :: 0 <= i < |rs| ==> (i in idx <==> SomeFieldMatches(p, rs[i], needle))
  {
    idx := KeepIfPositions(rs, x => SomeFieldMatches(p, x, needle));
  }

  /** The table's filtered list is the input with the non-matching records
      removed: same relative order, no additions, no repeats. A blank term
      keeps every position. */
  lemma FilterPositions(p: Platform, rs: seq<Record>, term: string) returns (idx: seq<nat>)
    ensures |idx| == |Filter(p, rs, term)|
    ensures forall k :: 0 <= k < |idx| ==> idx[k] < |rs| && Filter(p, rs, term)[k] == rs[idx[k]]
    ensures Increasing(idx)
    ensures forall i :: 0 <= i < |rs| ==>
              (i in idx <==> Blank(term) || Mentions(p, rs[i], Lower(term)))
  {
    TrimEmptyIffBlank(term);
    if Blank(term) {
      idx := seq(|rs|, i requires 0 <= i < |rs| => i);
      forall i | 0 <= i < |rs|
        ensures i in idx
      {
        assert idx[i] == i;
      }
    } else {
      idx := KeepMatchingPositions(p, rs, Lower(term));
      forall i | 0 <= i < |rs|
        ensures SomeFieldMatches(p, rs[i], Lower(term)) <==> Mentions(p, rs[i], Lower(term))
      {
        SomeFieldMatchesIffMentions(p, rs[i], Lower(term));
      }
    }
  }

  /** The search is case-insensitive in the term: lower-casing the term
      first shows the same records. */
  lemma FilterCaseInsensitive(p: Platform, rs: seq<Record>, term: string)
    ensures Filter(p, rs, Lower(term)) == Filter(p, rs, term)
  {
    BlankLower(term);
    LowerIdempotent(term);
    TrimEmptyIffBlank(term);
    TrimEmptyIffBlank(Lower(term));
  }

  lemma {:induction false} KeepIfIdempotent<T(!new)>(xs: seq<T>, keep: T -> bool)
    ensures KeepIf(KeepIf(xs, keep), keep) == KeepIf(xs, keep)
  {
    if xs != [] {
      KeepIfIdempotent(xs[1..], keep);
      var tail := KeepIf(xs[1..], keep);
      if keep(xs[0]) {
        assert ([xs[0]] + tail)[1..] == tail;
      } else {
        assert KeepIf(xs, keep) == tail;
      }
    }
  }

  lemma KeepMatchingIdempotent(p: Platform, rs: seq<Record>, needle: string)
    ensures KeepMatching(p, KeepMatching(p, rs, needle), needle) == KeepMatching(p, rs, needle)
  {
    KeepIfIdempotent(rs, x => SomeFieldMatches(p, x, needle));
  }

  /** Filtering the filtered list again with the same term changes nothing. */
  lemma FilterIdempotent(p: Platform, rs: seq<Record>, term: string)
    ensures Filter(p, Filter(p, rs, term), term) == Filter(p, rs, term)
  {
    TrimEmptyIffBlank(term);
    KeepMatchingIdempotent(p, rs, Lower(term));
  }

  /** No character of `text` lower-cases to `c`. */
  predicate LowersAvoid(text: string, c: char)
  {
    forall j :: 0 <= j < |text| ==> LowerChar(text[j]) != c
  }

  /** A needle containing a character that no field's text lower-cases to
      matches no field. */
  lemma {:induction false} NoFieldMatches(p: Platform, rec: Record, needle: string, c: char)
    requires c in needle
    requires forall i :: 0 <= i < |rec| ==> LowersAvoid(Text(p, rec[i].value), c)
    ensures !SomeFieldMatches(p, rec, needle)
    decreases |rec|
  {
    if |rec| > 0 {
      var text := Text(p, rec[0].value);
      if ValueMatches(p, rec[0].value, needle) {
        IncludesChars(Lower(text), needle);
        var j :| 0 <= j < |Lower(text)| && Lower(text)[j] == c;
        LowerPointwise(text);
      }
      NoFieldMatches(p, rec[1..], needle, c);
    }
  }

  /** An example record: E1, Ana Cruz, active, born 1990-05-02. */
  function ExampleRecord(): Record
  {
    [Field("emp_id", Str("E1")), Field("first_name", Str("Ana")),
     Field("last_name", Str("Cruz")), Field("active", Bool(true)),
     Field("birthday", Str("1990-05-02"))]
  }

  /** No field text of the example record has a character that lower-cases
      to 'x' or to a space. */
  lemma ExampleTexts(p: Platform)
    ensures forall i :: 0 <= i < |ExampleRecord()| ==> LowersAvoid(Text(p, ExampleRecord()[i].value), 'x')
    ensures forall i :: 0 <= i < |ExampleRecord()| ==> LowersAvoid(Text(p, ExampleRecord()[i].value), ' ')
  {
    var texts := ["E1", "Ana", "Cruz", "true", "1990-05-02"];
    assert forall i :: 0 <= i < 5 ==> Text(p, ExampleRecord()[i].value) == texts[i];
  }

  /** "ana" keeps the record: the search ignores case. */
  lemma SearchKeepsExample(p: Platform)
    ensures Filter(p, [ExampleRecord()], "ana") == [ExampleRecord()]
  {
    var rec := ExampleRecord();
    assert !IsWhitespace("ana"[0]);
    assert Lower("ana") == "ana";
    assert Lower(Text(p, rec[1].value)) == "ana";
    assert StartsWith("ana", "ana");
    assert SomeFieldMatches(p, rec[1..], "ana");
    assert SomeFieldMatches(p, rec, "ana");
    assert [rec][1..] == [];
  }

  /** "xyz" removes the record. */
  lemma SearchDropsExample(p: Platform)
    ensures Filter(p, [ExampleRecord()], "xyz") == []
  {
    ExampleTexts(p);
    assert !IsWhitespace("xyz"[0]);
    assert Lower("xyz") == "xyz" && 'x' in "xyz";
    NoFieldMatches(p, ExampleRecord(), "xyz", 'x');
    assert [ExampleRecord()][1..] == [];
  }

  /** "ana " removes the record too: the term is trimmed only to decide
      whether it is blank, not for matching. */
  lemma UntrimmedTermExample(p: Platform)
    ensures Filter(p, [ExampleRecord()], "ana ") == []
  {
    ExampleTexts(p);
    assert !IsWhitespace("ana "[0]);
    assert Lower("ana ") == "ana " && ' ' in "ana ";
    NoFieldMatches(p, ExampleRecord(), "ana ", ' ');
    assert [ExampleRecord()][1..] == [];
  }
}

=== FILE: strings.dfy ===
/** String operations of the JavaScript runtime that the console relies on:
    lower-casing, `trim`, `includes`, `Array.prototype.join` over strings,
    splitting on a one-character separator (the inverse used to read the
    CSV export back), and the decimal rendering of integers that template
    literals perform. */
module Strings {

  // ---------------------------------------------------------------------
  // Lower-casing (ASCII letters only)
  // ---------------------------------------------------------------------

  predicate IsUpper(c: char) { 'A' <= c <= 'Z' }

  function LowerChar(c: char): (d: char)
    ensures IsUpper(c) ==> d as int == c as int + 32
    ensures !IsUpper(c) ==> d == c
    ensures !IsUpper(d)
  {
    if IsUpper(c) then (c as int + 32) as char else c
  }

  /** `String.prototype.toLowerCase`, restricted to ASCII letters. */
  function Lower(s: string): (r: string)
    ensures |r| == |s|
  {
    if s == [] then [] else [LowerChar(s[0])] + Lower(s[1..])
  }

  /** Lower-casing works character by character. */
  lemma {:induction false} LowerPointwise(s: string)
    ensures |Lower(s)| == |s|
    ensures forall i :: 0 <= i < |s| ==> Lower(s)[i] == LowerChar(s[i])
    ensures forall i :: 0 <= i < |s| && IsUpper(s[i]) ==> Lower(s)[i] as int == s[i] as int + 32
    ensures forall i :: 0 <= i < |s| && !IsUpper(s[i]) ==> Lower(s)[i] == s[i]
  {
    if s != [] {
      LowerPointwise(s[1..]);
    }
  }

  /** Lower-casing twice is lower-casing once. */
  lemma LowerIdempotent(s: string)
    ensures Lower(Lower(s)) == Lower(s)
  {
    LowerPointwise(s);
    LowerPointwise(Lower(s));
  }

  // ---------------------------------------------------------------------
  // Trimming
  // ---------------------------------------------------------------------

  /** The characters `String.prototype.trim` removes: ECMAScript
      WhiteSpace and LineTerminator code points. */
  predicate IsWhitespace(c: char)
  {
    var n := c as int;
    n == 0x09 || n == 0x0A || n == 0x0B || n == 0x0C || n == 0x0D || n == 0x20
    || n == 0xA0 || n == 0x1680 || (0x2000 <= n <= 0x200A)
    || n == 0x2028 || n == 0x2029 || n == 0x202F || n == 0x205F
    || n == 0x3000 || n == 0xFEFF
  }

  /** Every character of `s` is whitespace (the empty string included). */
  predicate Blank(s: string)
  {
    forall i :: 0 <= i < |s| ==> IsWhitespace(s[i])
  }

  /** Drops the leading whitespace: the result is the suffix of `s` that
      starts at the first non-whitespace character. */
  function TrimStart(s: string): (r: string)
    ensures |r| <= |s| && r == s[|s| - |r|..]
    ensures forall i :: 0 <= i < |s| - |r| ==> IsWhitespace(s[i])
    ensures r != [] ==> !IsWhitespace(r[0])
  {
    if s == [] || !IsWhitespace(s[0]) then s else TrimStart(s[1..])
  }

  /** Drops the trailing whitespace: the result is the prefix of `s` that
      ends at the last non-whitespace character. */
  function TrimEnd(s: string): (r: string)
    ensures |r| <= |s| && r == s[..|r|]
    ensures forall i :: |r| <= i < |s| ==> IsWhitespace(s[i])
    ensures r != [] ==> !IsWhitespace(r[|r| - 1])
  {
    if s == [] || !IsWhitespace(s[|s| - 1]) then s else TrimEnd(s[..|s| - 1])
  }

  /** `String.prototype.trim`. */
  function Trim(s: string): string
  {
    TrimEnd(TrimStart(s))
  }

  lemma {:induction false} TrimStartOfBlank(s: string)
    requires Blank(s)
    ensures TrimStart(s) == []
  {
    if s != [] {
      TrimStartOfBlank(s[1..]);
    }
  }

  /** A string trims to "" exactly when it consists of whitespace only. */
  lemma TrimEmptyIffBlank(s: string)
    ensures Trim(s) == [] <==> Blank(s)
  {
    if Blank(s) {
      TrimStartOfBlank(s);
    }
    if Trim(s) == [] {
      TrimEmptyImpliesBlank(s);
    }
  }

  /** Nothing survives trimming only if everything was whitespace: the end
      trim of "" leaves every character of the start-trimmed text marked as
      whitespace, and that text cannot begin with whitespace. */
  lemma TrimEmptyImpliesBlank(s: string)
    requires Trim(s) == []
    ensures Blank(s)
  {
    var t := TrimStart(s);
    assert forall i :: 0 <= i < |t| ==> IsWhitespace(t[i]);
    assert |t| == 0;
  }

  /** Lower-casing neither creates nor removes whitespace. */
  lemma BlankLower(s: string)
    ensures Blank(Lower(s)) <==> Blank(s)
  {
    LowerPointwise(s);
    forall i | 0 <= i < |s|
      ensures IsWhitespace(Lower(s)[i]) <==> IsWhitespace(s[i])
    {
      assert Lower(s)[i] == LowerChar(s[i]);
    }
  }

  // ---------------------------------------------------------------------
  // Substring search
  // ---------------------------------------------------------------------

  predicate StartsWith(s: string, t: string)
  {
    |t| <= |s| && s[..|t|] == t
  }

  /** `String.prototype.includes`, scanning start positions left to right. */
  predicate Includes(s: string, t: string)
    decreases |s|
  {
    StartsWith(s, t) || (|s| > 0 && Includes(s[1..], t))
  }

  /** `t` occurs in `s` starting at position `k`. */
  ghost predicate OccursAt(s: string, t: string, k: int)
  {
    0 <= k && k + |t| <= |s| && s[k..k + |t|] == t
  }

  /** The scan finds `t` exactly when `t` occurs somewhere in `s`. */
  lemma {:induction false} IncludesIffOccurs(s: string, t: string)
    ensures Includes(s, t) <==> exists k :: OccursAt(s, t, k)
    decreases |s|
  {
    if StartsWith(s, t) {
      assert OccursAt(s, t, 0);
    } else if |s| > 0 {
      IncludesIffOccurs(s[1..], t);
      if exists k :: OccursAt(s[1..], t, k) {
        var k :| OccursAt(s[1..], t, k);
        assert s[1..][k..k + |t|] == s[k + 1..k + 1 + |t|];
        assert OccursAt(s, t, k + 1);
      }
      if exists k :: OccursAt(s, t, k) {
        var k :| OccursAt(s, t, k);
        assert k != 0;
        assert s[1..][k - 1..k - 1 + |t|] == s[k..k + |t|];
        assert OccursAt(s[1..], t, k - 1);
      }
    }
  }

  /** Every character of a found needle occurs in the haystack. */
  lemma IncludesChars(s: string, t: string)
    requires Includes(s, t)
    ensures forall c :: c in t ==> c in s
  {
    IncludesIffOccurs(s, t);
    var k :| OccursAt(s, t, k);
    forall c | c in t
      ensures c in s
    {
      var j :| 0 <= j < |t| && t[j] == c;
      assert s[k + j] == s[k..k + |t|][j];
    }
  }

  // ---------------------------------------------------------------------
  // Join and split
  // ---------------------------------------------------------------------

  /** `Array.prototype.join(sep)` over strings: the parts with `sep`
      between neighbours and nowhere else; the empty array gives "". */
  function Join(parts: seq<string>, sep: string): string
  {
    if |parts| == 0 then ""
    else if |parts| == 1 then parts[0]
    else parts[0] + sep + Join(parts[1..], sep)
  }

  /** `String.prototype.split(c)` for a one-character separator `c`: the
      maximal `c`-free pieces, in order; always at least one piece. */
  function Split(s: string, c: char): (r: seq<string>)
    ensures |r| >= 1
    ensures forall k :: 0 <= k < |r| ==> c !in r[k]
  {
    if |s| == 0 then [""]
    else if s[0] == c then [""] + Split(s[1..], c)
    else
      var rest := Split(s[1..], c);
      [[s[0]] + rest[0]] + rest[1..]
  }

  lemma {:induction false} SplitNoSeparator(s: string, c: char)
    requires c !in s
    ensures Split(s, c) == [s]
    decreases |s|
  {
    if |s| > 0 {
      assert c !in s[1..];
      SplitNoSeparator(s[1..], c);
      assert [s[0]] + s[1..] == s;
    }
  }

  lemma {:induction false} SplitAfterPiece(a: string, b: string, c: char)
    requires c !in a
    ensures Split(a + [c] + b, c) == [a] + Split(b, c)
    decreases |a|
  {
    if |a| == 0 {
      assert a + [c] + b == [c] + b;
      assert ([c] + b)[1..] == b;
    } else {
      var s := a + [c] + b;
      assert s[0] == a[0] && s[0] != c;
      assert s[1..] == a[1..] + [c] + b;
      assert c !in a[1..];
      SplitAfterPiece(a[1..], b, c);
      assert [a[0]] + a[1..] == a;
    }
  }

  /** Splitting a join on a one-character separator recovers the parts,
      provided no part contains the separator and there is at least one
      part (`[].join` and `[""].join` are both ""). */
  lemma {:induction false} SplitJoin(parts: seq<string>, c: char)
    requires |parts| >= 1
    requires forall k :: 0 <= k < |parts| ==> c !in parts[k]
    ensures Split(Join(parts, [c]), c) == parts
    decreases |parts|
  {
    if |parts| == 1 {
      SplitNoSeparator(parts[0], c);
    } else {
      SplitJoin(parts[1..], c);
      SplitAfterPiece(parts[0], Join(parts[1..], [c]), c);
      assert [parts[0]] + parts[1..] == parts;
    }
  }

  // ---------------------------------------------------------------------
  // Decimal rendering of integers (template literals, `String(n)`)
  // ---------------------------------------------------------------------

  predicate IsDigit(c: char) { '0' <= c <= '9' }

  predicate AllDigits(s: string)
  {
    forall i :: 0 <= i < |s| ==> IsDigit(s[i])
  }

  function DigitChar(d: nat): (c: char)
    requires d < 10
    ensures IsDigit(c) && c as int - '0' as int == d
  {
    ('0' as int + d) as char
  }

  /** Decimal digits of `n`, most significant first, without leading zeros. */
  function NatToString(n: nat): (r: string)
    ensures |r| >= 1 && AllDigits(r)
    ensures |r| > 1 ==> r[0] != '0'
  {
    if n < 10 then [DigitChar(n)] else NatToString(n / 10) + [DigitChar(n % 10)]
  }

  /** The value of a string of decimal digits. */
  function ParseNat(s: string): nat
    requires AllDigits(s)
  {
    if |s| == 0 then 0
    else ParseNat(s[..|s| - 1]) * 10 + (s[|s| - 1] as int - '0' as int)
  }

  lemma {:induction false} ParseNatToString(n: nat)
    ensures ParseNat(NatToString(n)) == n
  {
    if n >= 10 {
      ParseNatToString(n / 10);
      var s := NatToString(n);
      assert s[..|s| - 1] == NatToString(n / 10);
    }
  }

  /** `String(i)` for an integer: a minus sign for negatives, then digits. */
  function IntToString(i: int): (r: string)
    ensures |r| >= 1 && (r[0] == '-' || IsDigit(r[0]))
    ensures '/' !in r
  {
    if i < 0 then "-" + NatToString(-i) else NatToString(i)
  }

  /** Reads back an integer written by `IntToString`. */
  function ParseInt(s: string): int
  {
    if |s| > 0 && s[0] == '-' && AllDigits(s[1..]) then 0 - ParseNat(s[1..])
    else if AllDigits(s) then ParseNat(s)
    else 0
  }

  lemma IntToStringRoundTrip(i: int)
    ensures ParseInt(IntToString(i)) == i
  {
    var s := IntToString(i);
    if i < 0 {
      var digits := NatToString(-i);
      assert s == "-" + digits;
      assert s[0] == '-' && s[1..] == digits && AllDigits(digits);
      ParseNatToString(-i);
    } else {
      assert s == NatToString(i) && AllDigits(s);
      assert s[0] != '-';
      ParseNatToString(i);
    }
  }
}

=== FILE: toolbar.dfy ===
/** The root component of the employee console (frontend/src/App.js) as a
    state machine: one immutable application state and one transition per
    toolbar action (Add, Edit, View, Delete, Refresh), plus the search-box
    effect, the selection change and the two dialogs' close handlers.

    HTTP responses and the user's answer to the confirmation prompt are
    inputs of the transitions. Every notification the component shows is
    appended to a queue in the state. */
module Toolbar {
  import opened Strings
  import opened Values
  import opened Search
  import opened Dates
  import opened Csv

  // ---------------------------------------------------------------------
  // Notifications
  // ---------------------------------------------------------------------

  datatype Severity = Success | Warn | Error

  /** What a notification says; `Deleted` carries the number of records. */
  datatype Message =
    | FetchFailed
    | SelectOneToEdit
    | SelectOneToView
    | SelectSomeToDelete
    | DeleteFailed
    | Deleted(count: nat)

  datatype Toast = Toast(severity: Severity, message: Message)

  /** What follows the count in the success text after a delete. */
  const DeletedSuffix: string := " employee(s) deleted"

  /** The notification's text. */
  function Detail(m: Message): string
  {
    match m
    case FetchFailed => "Failed to fetch employees"
    case SelectOneToEdit => "Please select exactly one employee to edit"
    case SelectOneToView => "Please select exactly one employee to view"
    case SelectSomeToDelete => "Please select at least one employee to delete"
    case DeleteFailed => "Failed to delete employee(s)"
    case Deleted(n) => NatToString(n) + DeletedSuffix
  }

  /** The success text after a delete is told apart from every other
      notification text, and it determines the count it reports. */
  lemma DeletedDetailIdentifiesCount(n: nat, m: Message)
    requires Detail(m) == Detail(Deleted(n))
    ensures m == Deleted(n)
  {
    if m.Deleted? {
      var a := NatToString(m.count);
      var b := NatToString(n);
      var suffix := DeletedSuffix;
      assert |a| == |b|;
      assert a == (a + suffix)[..|a|] == (b + suffix)[..|b|] == b;
      ParseNatToString(m.count);
      ParseNatToString(n);
    } else {
      DeletedDetailLastChar(n);
      FixedDetailLastChar(m);
    }
  }

  /** No fixed notification text ends in 'd', the last letter of the
      success text after a delete. */
  lemma FixedDetailLastChar(m: Message)
    ensures !m.Deleted? ==> |Detail(m)| > 0 && Detail(m)[|Detail(m)| - 1] != 'd'
  {
  }

  lemma DeletedDetailLastChar(n: nat)
    ensures |Detail(Deleted(n))| > 0 && Detail(Deleted(n))[|Detail(Deleted(n))| - 1] == 'd'
  {
    var t := Detail(Deleted(n));
    assert t[|t| - 1] == DeletedSuffix[|DeletedSuffix| - 1];
  }

  // ---------------------------------------------------------------------
  // Application state
  // ---------------------------------------------------------------------

  datatype AppState = AppState(
    employees: seq<Record>,     // the list last fetched from the backend
    filtered: seq<Record>,      // the rows the table shows
    selection: seq<Record>,     // the checked rows, in selection order
    searchTerm: string,
    formVisible: bool,          // the add/edit form
    editMode: bool,
    viewVisible: bool,          // the detail dialog
    viewed: Option<Record>,
    toasts: seq<Toast>          // every notification shown so far
  )

  /** The state the component starts in: empty lists, no selection, an
      empty term, both dialogs hidden, nothing viewed and nothing shown. */
  const Initial: AppState := AppState([], [], [], "", false, false, false, None, [])

  /** The table shows the full list filtered by the current term. */
  predicate Consistent(p: Platform, s: AppState)
  {
    s.filtered == Filter(p, s.employees, s.searchTerm)
  }

  /** The lists, the selection and the term are the same in both states. */
  predicate SameData(s: AppState, t: AppState)
  {
    && t.employees == s.employees
    && t.filtered == s.filtered
    && t.selection == s.selection
    && t.searchTerm == s.searchTerm
  }

  /** The dialog flags and the viewed record are the same in both states. */
  predicate SameDialogs(s: AppState, t: AppState)
  {
    && t.formVisible == s.formVisible
    && t.editMode == s.editMode
    && t.viewVisible == s.viewVisible
    && t.viewed == s.viewed
  }

  /** The record handed to the form: the first selected record after date
      normalisation in edit mode, none in create mode. */
  function FormRecord(p: Platform, s: AppState): (r: Option<Record>)
    ensures r.Some? <==> s.editMode && |s.selection| > 0
    ensures r.Some? ==>
      var first := s.selection[0];
      && |r.value| == |first|
      && (forall i :: 0 <= i < |first| ==> r.value[i].name == first[i].name)
      && (forall i :: 0 <= i < |first| && first[i].name !in DateFields ==> r.value[i] == first[i])
      && (forall i :: 0 <= i < |first| && first[i].name in DateFields ==> Settled(r.value[i].value))
      && (forall i :: 0 <= i < |first| && first[i].name in DateFields ==>
            r.value[i].value == NormalizeDate(p, first[i].value))
  {
    if s.editMode && |s.selection| > 0 then
      NormalizeFieldsEntrywise(p, s.selection[0], DateFields);
      ParseEmployeeDates(p, Some(s.selection[0]))
    else if s.editMode then ParseEmployeeDates(p, None)
    else None
  }

  // ---------------------------------------------------------------------
  // Search box and selection
  // ---------------------------------------------------------------------

  /** Before the first fetch completes the table is consistent: it shows
      the (empty) full list. */
  lemma InitialConsistent(p: Platform)
    ensures Consistent(p, Initial)
    ensures Initial.filtered == Initial.employees == [] && Initial.toasts == []
  {
    assert Filter(p, [], "") == [];
  }

  /** The effect that runs when the term or the full list changes. */
  function SyncFilter(p: Platform, s: AppState): (t: AppState)
    ensures Consistent(p, t)
    ensures t.employees == s.employees && t.selection == s.selection && t.searchTerm == s.searchTerm
    ensures SameDialogs(s, t) && t.toasts == s.toasts
  {
    s.(filtered := Filter(p, s.employees, s.searchTerm))
  }

  /** Typing in the search box: the term changes and the effect re-filters. */
  function SetSearchTerm(p: Platform, s: AppState, term: string): (t: AppState)
    ensures t.searchTerm == term && Consistent(p, t)
    ensures Blank(term) ==> t.filtered == s.employees
    ensures t.employees == s.employees && t.selection == s.selection
    ensures SameDialogs(s, t) && t.toasts == s.toasts
  {
    SyncFilter(p, s.(searchTerm := term))
  }

  /** The table's selection-change handler. */
  function Select(p: Platform, s: AppState, rows: seq<Record>): (t: AppState)
    ensures t.selection == rows
    ensures t.employees == s.employees && t.filtered == s.filtered && t.searchTerm == s.searchTerm
    ensures SameDialogs(s, t) && t.toasts == s.toasts
    ensures Consistent(p, s) ==> Consistent(p, t)
  {
    s.(selection := rows)
  }

  // ---------------------------------------------------------------------
  // Refresh
  // ---------------------------------------------------------------------

  /** `fetchEmployees` given the response: a list on success, None on any
      failure. On success both lists become the fetched list (the effect
      re-filters it afterwards); on failure only an error is shown. */
  function Refresh(s: AppState, response: Option<seq<Record>>): (t: AppState)
    ensures response.Some? ==>
      && t.employees == response.value && t.filtered == response.value
      && t.selection == s.selection && t.searchTerm == s.searchTerm
      && SameDialogs(s, t) && t.toasts == s.toasts
    ensures response.None? ==>
      SameData(s, t) && SameDialogs(s, t) && t.toasts == s.toasts + [Toast(Error, FetchFailed)]
  {
    match response
    case Some(data) => s.(employees := data, filtered := data)
    case None => s.(toasts := s.toasts + [Toast(Error, FetchFailed)])
  }

  /** A successful refresh followed by the search effect shows the fetched
      list filtered by the current term; with a blank term the table is
      already right before the effect runs. A failed refresh keeps the
      table consistent. */
  lemma RefreshConsistency(p: Platform, s: AppState, response: Option<seq<Record>>)
    ensures response.Some? ==>
      SyncFilter(p, Refresh(s, response)).filtered == Filter(p, response.value, s.searchTerm)
    ensures response.Some? && Blank(s.searchTerm) ==> Consistent(p, Refresh(s, response))
    ensures response.None? && Consistent(p, s) ==> Consistent(p, Refresh(s, response))
  {
  }

  // ---------------------------------------------------------------------
  // Add, Edit, View
  // ---------------------------------------------------------------------

  /** Add opens the form in create mode. */
  function Add(p: Platform, s: AppState): (t: AppState)
    ensures t.formVisible && !t.editMode && FormRecord(p, t) == None
    ensures SameData(s, t) && t.viewVisible == s.viewVisible && t.viewed == s.viewed
    ensures t.toasts == s.toasts
  {
    s.(editMode := false, formVisible := true)
  }

  /** Edit opens the form in edit mode on the single selected record, whose
      date fields the form receives normalised; any other selection size
      only adds one warning. */
  function Edit(p: Platform, s: AppState): (t: AppState)
    ensures |s.selection| == 1 ==>
      && t.formVisible && t.editMode
      && FormRecord(p, t) == ParseEmployeeDates(p, Some(s.selection[0]))
      && SameData(s, t) && t.viewVisible == s.viewVisible && t.viewed == s.viewed
      && t.toasts == s.toasts
    ensures |s.selection| != 1 ==>
      SameData(s, t) && SameDialogs(s, t) && t.toasts == s.toasts + [Toast(Warn, SelectOneToEdit)]
  {
    if |s.selection| == 1 then s.(editMode := true, formVisible := true)
    else s.(toasts := s.toasts + [Toast(Warn, SelectOneToEdit)])
  }

  /** View shows the single selected record, as it is, in the detail
      dialog; any other selection size only adds one warning. */
  function View(s: AppState): (t: AppState)
    ensures |s.selection| == 1 ==>
      && t.viewVisible && t.viewed == Some(s.selection[0])
      && SameData(s, t) && t.formVisible == s.formVisible && t.editMode == s.editMode
      && t.toasts == s.toasts
    ensures |s.selection| != 1 ==>
      SameData(s, t) && SameDialogs(s, t) && t.toasts == s.toasts + [Toast(Warn, SelectOneToView)]
  {
    if |s.selection| == 1 then s.(viewed := Some(s.selection[0]), viewVisible := true)
    else s.(toasts := s.toasts + [Toast(Warn, SelectOneToView)])
  }

  /** The form's hide handler. */
  function CloseForm(s: AppState): (t: AppState)
    ensures !t.formVisible
    ensures SameData(s, t) && t.editMode == s.editMode && t.viewVisible == s.viewVisible
    ensures t.viewed == s.viewed && t.toasts == s.toasts
  {
    s.(formVisible := false)
  }

  /** The detail dialog's hide handler; the viewed record is kept. */
  function CloseView(s: AppState): (t: AppState)
    ensures !t.viewVisible
    ensures SameData(s, t) && t.formVisible == s.formVisible && t.editMode == s.editMode
    ensures t.viewed == s.viewed && t.toasts == s.toasts
  {
    s.(viewVisible := false)
  }

  /** Consistency depends only on the two lists and the term. */
  lemma ConsistentFrame(p: Platform, s: AppState, t: AppState)
    requires Consistent(p, s)
    requires t.employees == s.employees && t.filtered == s.filtered && t.searchTerm == s.searchTerm
    ensures Consistent(p, t)
  {
  }

  /** Opening the create form or the detail dialog keeps the table
      consistent with the term. */
  lemma ActionsKeepConsistency(p: Platform, s: AppState)
    requires Consistent(p, s)
    ensures Consistent(p, Add(p, s)) && Consistent(p, View(s))
  {
    ConsistentFrame(p, s, Add(p, s));
    ConsistentFrame(p, s, View(s));
  }

  /** Opening the edit form keeps the table consistent with the term. */
  lemma EditKeepsConsistency(p: Platform, s: AppState)
    requires Consistent(p, s)
    ensures Consistent(p, Edit(p, s))
  {
    ConsistentFrame(p, s, Edit(p, s));
  }

  /** Closing the form or the detail dialog keeps the table consistent too. */
  lemma ClosingKeepsConsistency(p: Platform, s: AppState)
    requires Consistent(p, s)
    ensures Consistent(p, CloseForm(s)) && Consistent(p, CloseView(s))
  {
    ConsistentFrame(p, s, CloseForm(s));
    ConsistentFrame(p, s, CloseView(s));
  }

  /** Delete never touches the lists or the term, so the table stays
      consistent whatever the prompt's answer and the backend's replies. */
  lemma DeleteKeepsConsistency(p: Platform, s: AppState, confirmed: bool, reply: nat -> bool)
    requires Consistent(p, s)
    ensures Consistent(p, HandleDelete(p, s, confirmed, reply).state)
  {
    ConsistentFrame(p, s, HandleDelete(p, s, confirmed, reply).state);
  }

  // ---------------------------------------------------------------------
  // Download
  // ---------------------------------------------------------------------

  /** `handleDownload`: the exported text is built from the full list, not
      from the rows the table shows. */
  function Download(p: Platform, s: AppState): (text: string)
    ensures |s.employees| == 0 ==> text == ""
    ensures |s.employees| > 0 ==> StartsWith(text, Line(p, s.employees[0]))
  {
    ToCsv(p, s.employees)
  }

  /** The search term does not change what is exported. */
  lemma DownloadIgnoresSearch(p: Platform, s: AppState, term: string)
    ensures Download(p, SetSearchTerm(p, s, term)) == Download(p, s)
  {
  }

  /** Reading the export back gives one line per record of the full list,
      in list order, whatever the table currently shows. */
  lemma DownloadReadBack(p: Platform, s: AppState)
    requires |s.employees| > 0
    requires forall i :: 0 <= i < |s.employees| ==> |s.employees[i]| > 0
    requires CellsAvoid(p, s.employees, '\n') && CellsAvoid(p, s.employees, ',')
    ensures var lines := Split(Download(p, s), '\n');
            && |lines| == |s.employees|
            && forall i :: 0 <= i < |s.employees| ==> Split(lines[i], ',') == Cells(p, s.employees[i])
  {
    CsvReadBack(p, s.employees);
  }

  // ---------------------------------------------------------------------
  // Delete
  // ---------------------------------------------------------------------

  /** The id interpolated into the delete URL: `String(emp.emp_id)`, which
      is "undefined" for a record without one. */
  function IdText(p: Platform, rec: Record): (r: string)
    ensures (forall i :: 0 <= i < |rec| ==> rec[i].name != "emp_id") ==> r == "undefined"
    ensures forall i :: 0 <= i < |rec| && rec[i].name == "emp_id" && (forall j :: 0 <= j < i ==> rec[j].name != "emp_id")
              ==> r == Text(p, rec[i].value)
  {
    match Get(rec, "emp_id")
    case None => "undefined"
    case Some(v) => Text(p, v)
  }

  function Ids(p: Platform, rows: seq<Record>): seq<string>
  {
    seq(|rows|, i requires 0 <= i < |rows| => IdText(p, rows[i]))
  }

  /** The first call, counting from `i`, that `reply` answers with a
      failure, among calls `i` to `n - 1`; None when all of them succeed. */
  function FirstFailure(n: nat, reply: nat -> bool, i: nat): (f: Option<nat>)
    requires i <= n
    ensures f.None? <==> forall k :: i <= k < n ==> reply(k)
    ensures f.Some? ==> i <= f.value < n && !reply(f.value)
    ensures f.Some? ==> forall k :: i <= k < f.value ==> reply(k)
    decreases n - i
  {
    if i == n then None
    else if !reply(i) then Some(i)
    else FirstFailure(n, reply, i + 1)
  }

  /** The outcome of the Delete action: the next state, the ids of the
      DELETE requests issued (in order), the ids the backend removed, and
      whether a refresh of the list was started. */
  datatype DeleteRun = DeleteRun(state: AppState, calls: seq<string>, deleted: seq<string>, refetch: bool)

  /** `handleDelete`. `confirmed` is the user's answer to the prompt;
      `reply(k)` tells whether the k-th DELETE request succeeds. */
  function HandleDelete(p: Platform, s: AppState, confirmed: bool, reply: nat -> bool): (o: DeleteRun)
    ensures |s.selection| == 0 ==>
      && o.calls == [] && o.deleted == [] && !o.refetch
      && SameData(s, o.state) && SameDialogs(s, o.state)
      && o.state.toasts == s.toasts + [Toast(Warn, SelectSomeToDelete)]
    ensures |s.selection| > 0 && !confirmed ==>
      o.calls == [] && o.deleted == [] && !o.refetch && o.state == s
    ensures |s.selection| > 0 && confirmed ==>
      && 1 <= |o.calls| <= |s.selection|
      && o.calls == Ids(p, s.selection)[..|o.calls|]
      && (forall k :: 0 <= k < |o.calls| - 1 ==> reply(k))
  {
    if |s.selection| == 0 then
      DeleteRun(s.(toasts := s.toasts + [Toast(Warn, SelectSomeToDelete)]), [], [], false)
    else if !confirmed then
      DeleteRun(s, [], [], false)
    else
      var ids := Ids(p, s.selection);
      match FirstFailure(|ids|, reply, 0)
      case None =>
        DeleteRun(s.(selection := [], toasts := s.toasts + [Toast(Success, Deleted(|s.selection|))]),
                  ids, ids, true)
      case Some(f) =>
        DeleteRun(s.(toasts := s.toasts + [Toast(Error, DeleteFailed)]), ids[..f + 1], ids[..f], false)
  }

  /** Every DELETE succeeds: each selected id was requested and removed,
      the selection is cleared, a refresh starts, and the success message
      counts the whole selection. */
  lemma DeleteAllSucceed(p: Platform, s: AppState, reply: nat -> bool)
    requires |s.selection| > 0
    requires forall k :: 0 <= k < |s.selection| ==> reply(k)
    ensures var o := HandleDelete(p, s, true, reply);
            && o.calls == Ids(p, s.selection) && o.deleted == o.calls && o.refetch
            && o.state.selection == []
            && o.state.toasts == s.toasts + [Toast(Success, Deleted(|s.selection|))]
            && o.state.employees == s.employees && o.state.filtered == s.filtered
            && o.state.searchTerm == s.searchTerm && SameDialogs(s, o.state)
  {
  }

  /** The `f`-th DELETE is the first to fail: requests were sent for the
      ids up to and including it, only those before it were removed, no
      refresh starts, the lists, selection and dialogs stay and one error is
      appended. */
  lemma DeleteStopsAtFirstFailure(p: Platform, s: AppState, reply: nat -> bool, f: nat)
    requires f < |s.selection| && !reply(f)
    requires forall k :: 0 <= k < f ==> reply(k)
    ensures var o := HandleDelete(p, s, true, reply);
            && o.calls == Ids(p, s.selection)[..f + 1]
            && o.deleted == Ids(p, s.selection)[..f]
            && !o.refetch
            && SameData(s, o.state) && SameDialogs(s, o.state)
            && o.state.toasts == s.toasts + [Toast(Error, DeleteFailed)]
  {
  }

  /** Three selected records whose second DELETE fails: the first record is
      removed, the second was attempted, the third never is; the selection
      stays and one error is shown. */
  lemma DeleteSecondFailsExample(p: Platform, s: AppState, reply: nat -> bool)
    requires |s.selection| == 3
    requires Ids(p, s.selection) == ["E1", "E2", "E3"]
    requires reply(0) && !reply(1)
    ensures var o := HandleDelete(p, s, true, reply);
            && o.calls == ["E1", "E2"]
            && o.deleted == ["E1"]
            && o.state.selection == s.selection
            && o.state.toasts == s.toasts + [Toast(Error, DeleteFailed)]
  {
    var ids := Ids(p, s.selection);
    assert ids[..2] == ["E1", "E2"];
    assert ids[..1] == ["E1"];
  }
}

=== FILE: values.dfy ===
/** The values an employee record holds once it is in the browser, and the
    few JavaScript coercions the console applies to them: truthiness,
    `String(v)`, the element conversion of `Array.prototype.join`, and
    `new Date(v)` followed by the `isNaN(getTime())` validity test.

    The parts of the JavaScript runtime that depend on the host (date-string
    parsing, the local-time calendar getters, the text of a Date object) are
    not modelled; they are fields of a `Platform` value that every operation
    needing them receives as a parameter. */
module Values {
  import opened Strings

  datatype Option<T> = None | Some(value: T)

  /** A valid point in time, as milliseconds since the epoch (the result of
      `getTime()` when it is not NaN). */
  datatype Instant = Instant(epochMs: int)

  /** One field value. Records arrive as JSON, so their values are strings,
      numbers, booleans or null; the edit-form normaliser adds Date objects.
      A number is carried as the text `String(n)` gives for it. */
  datatype Value =
    | Str(s: string)
    | Num(text: string)
    | Bool(b: bool)
    | Null
    | Date(at: Instant)

  /** A key and its value; a record lists its fields in key-enumeration order. */
  datatype Field = Field(name: string, value: Value)

  type Record = seq<Field>

  /** Keys of a JavaScript object are distinct. */
  predicate WellFormed(r: Record)
  {
    forall i, j :: 0 <= i < j < |r| ==> r[i].name != r[j].name
  }

  /** Property access `r[name]`; `None` stands for `undefined`. */
  function Get(r: Record, name: string): (v: Option<Value>)
    ensures v.None? <==> forall i :: 0 <= i < |r| ==> r[i].name != name
    ensures v.Some? ==> exists i :: 0 <= i < |r| && r[i] == Field(name, v.value)
    ensures forall i :: 0 <= i < |r| && r[i].name == name && (forall j :: 0 <= j < i ==> r[j].name != name)
              ==> v == Some(r[i].value)
    decreases |r|
  {
    if |r| == 0 then None
    else if r[0].name == name then Some(r[0].value)
    else Get(r[1..], name)
  }

  /** The host-dependent parts of the JavaScript runtime. */
  datatype Platform = Platform(
    parseDate: string -> Option<Instant>,    // `new Date(text)`; None when getTime() is NaN
    numberDate: string -> Option<Instant>,   // `new Date(n)` for the number whose text is given
    dateText: Instant -> string,             // `String(d)` for a Date object
    month: Instant -> int,                   // `getMonth()`, local time, 0-based
    day: Instant -> int,                     // `getDate()`, local time
    year: Instant -> int                     // `getFullYear()`, local time
  )

  /** JavaScript truthiness. The falsy numbers are 0, -0 (whose text is
      also "0") and NaN. */
  predicate Truthy(v: Value): (b: bool)
    ensures !b <==> v in {Str(""), Num("0"), Num("NaN"), Bool(false), Null}
  {
    match v
    case Str(s) => s != ""
    case Num(text) => text != "0" && text != "NaN"
    case Bool(b) => b
    case Null => false
    case Date(_) => true
  }

  /** Truthiness of a property that may be `undefined`. */
  predicate Present(v: Option<Value>)
  {
    v.Some? && Truthy(v.value)
  }

  /** `String(v)`. */
  function Text(p: Platform, v: Value): (r: string)
    ensures v.Str? ==> r == v.s
    ensures v.Bool? || v.Null? ==> r in {"true", "false", "null"}
    ensures v.Bool? ==> (r == "true" <==> v.b)
  {
    match v
    case Str(s) => s
    case Num(text) => text
    case Bool(b) => if b then "true" else "false"
    case Null => "null"
    case Date(at) => p.dateText(at)
  }

  /** The text `Array.prototype.join` puts in place of an element: like
      `String(v)`, except that null becomes the empty string. */
  function JoinText(p: Platform, v: Value): string
  {
    if v.Null? then "" else Text(p, v)
  }

  /** `new Date(v)`, or None when the resulting Date is invalid. */
  function NewDate(p: Platform, v: Value): (r: Option<Instant>)
    ensures r.None? ==> v.Str? || v.Num?
    ensures v.Bool? || v.Null? ==> r.Some? && 0 <= r.value.epochMs <= 1
    ensures v.Date? ==> r == Some(v.at)
  {
    match v
    case Str(s) => p.parseDate(s)
    case Num(text) => p.numberDate(text)
    case Bool(b) => Some(Instant(if b then 1 else 0))
    case Null => Some(Instant(0))
    case Date(at) => Some(at)
  }
}
